=== FILE: README.md ===
# Kanban task board — Dafny model

A model of the state core of a single-user kanban board (a React/TypeScript
app). The board is a sequence of columns. Each column has an id, a title and
a status (`todo`, `inprogress` or `done`), and holds an ordered sequence of
tasks. The model covers:

- the store (`TaskContext`): the seed board, `createTask` and `moveTask`,
  each as a pure function over `seq<Column>`;
- the creation form's submit handler: the trim/non-empty guard, the payload
  it builds and the form reset;
- the board's drag-and-drop handlers (payload plus `draggedTask`) and its
  empty-column state;
- the list view's flattening of all columns, with its badge and ship-date
  cells.

It proves the store's two invariants: every task's status equals its
column's status, and task ids are unique. Both hold on the seed board. Every
move preserves them. A creation preserves them when its id is fresh, its
status is todo, and the board has at most one todo column. The seed board
has one, and no operation changes a column's status. The proofs then lift
this to any admissible run from the seed board (each creation's id assumed
fresh).

Files and modules:

| file | module | models |
|---|---|---|
| `types.dfy` | `TaskTypes` | `src/types/task.ts`: `Task`, `Column`, the status union, the creation payload; the invariants |
| `store.dfy` | `TaskStore` | `src/context/TaskContext.tsx`: `initialColumns`, `createTask`, `moveTask` |
| `store_properties.dfy` | `StoreProperties` | what `createTask` and `moveTask` promise |
| `session.dfy` | `Session` | runs of store calls from the seed board |
| `text.dfy` | `Text` | `String.prototype.trim` |
| `form.dfy` | `CreateTaskForm` | `src/components/CreateTaskModal.tsx`: `handleSubmit` |
| `board.dfy` | `BoardView` | `src/components/Board.tsx`: `handleDragStart`, `handleDrop`, empty state |
| `list_view.dfy` | `ListView` | `src/components/ListView.tsx`: flattening, badge, ship-date cell |

Modelling choices:

- `Date` is the millisecond count a JS `Date` holds. The seed dates are the
  UTC midnights that `new Date('2024-06-10')` and the others parse to.
- `Date.now().toString()` and `new Date()` are not modelled. `CreateTask`
  takes the new id and the creation date as parameters. Id freshness is a
  precondition of the invariant lemmas only. The source does not guarantee
  it, because two creations in the same millisecond get the same id.
- `moveTask` is modelled as the code behaves:
  - every column loses its FIRST task with the id (`findIndex` + `splice`);
  - the task carried forward comes from the LAST column that had a match,
    because the `forEach` overwrites the carried task each time;
  - the target is the FIRST column whose id matches (`find`);
  - an unknown task id changes nothing;
  - an unknown target drops the task.
- The source moves by splicing and pushing in place, on arrays shared with
  the previous React state. The model is purely functional instead. The
  resulting board is the same.
- The set of characters `trim` strips is written out in full: ECMAScript
  WhiteSpace plus LineTerminator.
- A drop reads the payload with `getData`, which yields `""` when nothing
  was set. A drop needs both the payload and `draggedTask` to be truthy.
  Under JavaScript truthiness a `draggedTask` of `""` blocks a drop just as
  `null` does.
- `createTask` spreads the caller's data, so the new task keeps the
  caller's `status`; the form always sends todo.
  `CreateTaskKeepsCallerStatus` shows that any other status breaks the
  status invariant.
- `createTask` appends to every column whose status is todo.
  `CreateTaskDuplicatesAcrossTodoColumns` shows that two such columns
  would duplicate the id. The seed board has exactly one.
- Duplicate ids are possible: two creations in the same millisecond get
  the same id, and so do the copies made on a board with two todo columns.
  On such a board `moveTask` cuts the first match from every column but
  re-appends only one task, the one from the last column with a match.
  `MoveDuplicateInOneColumn` and `MoveDuplicateAcrossColumnsLosesOne` pin
  this down; in the second case a task is lost.

## Model

| member | source | states |
|---|---|---|
| TaskTypes.StatusName | src/types/task.ts:10 | every status is written as one of the three literals of the union |
| TaskTypes.ParseStatus | src/types/task.ts:10 | a status literal is accepted exactly when it is `todo`, `inprogress` or `done`, and reads back to its own name |
| TaskTypes.StatusNameRoundTrip | src/types/task.ts:10-16 | every status reads back to itself from its literal, and distinct statuses have distinct literals |
| TaskStore.InitialColumns | src/context/TaskContext.tsx:4-66 | the seed board has three columns, each with an id equal to its status's literal, and pairwise-distinct statuses, and it holds four tasks |
| TaskStore.InitialColumnsWellFormed | src/context/TaskContext.tsx:4-66 | on the seed board, task ids are pairwise distinct and every task's status equals its column's |
| TaskStore.NewTask | src/context/TaskContext.tsx:80-84 | the new task takes its id and creation date from the caller-supplied values, and its remaining fields, status included, give back the caller's data unchanged |
| TaskStore.CreateTask | src/context/TaskContext.tsx:79-93 | column count and headers are kept; a todo column gets its old tasks followed by the new task; every other column is unchanged |
| TaskStore.FindTaskIndex | src/context/TaskContext.tsx:101 | returns none exactly when no task has the id; otherwise the first position holding the id |
| TaskStore.FindColumn | src/context/TaskContext.tsx:109 | returns none exactly when no column has the id; otherwise the first such column |
| TaskStore.RemoveAt | src/context/TaskContext.tsx:104 | cutting position k keeps the elements before k and shifts the ones after it down by one |
| TaskStore.SpliceFirst | src/context/TaskContext.tsx:101-104 | a column keeps its id, title and status; with no task of the id it is unchanged; otherwise exactly its first task with the id is cut |
| TaskStore.SpliceAll | src/context/TaskContext.tsx:100-106 | every column, in order, has its first task with the id cut |
| TaskStore.LastMatch | src/context/TaskContext.tsx:98-106 | the scan carries a task exactly when some column holds the id, and that task is on the board with that id |
| TaskStore.MoveTask | src/context/TaskContext.tsx:95-118 | a move keeps the number of columns and each column's id, title and status |
| TaskStore.Place | src/context/TaskContext.tsx:108-113 | with nothing carried or no column of the target id the board is unchanged; otherwise only the first column of that id changes, gaining the carried task at its end with the column's status |
| StoreProperties.RemoveTaskKeepsWellFormed | src/context/TaskContext.tsx:101-104 | cutting a task keeps both invariants, removes its id from the board, keeps every other id, and lowers the count by one |
| StoreProperties.AppendTaskKeepsWellFormed | src/context/TaskContext.tsx:111-112 | appending a fresh-id task that has the column's status keeps both invariants and raises the count by one |
| StoreProperties.ScanFindsTheTask | src/context/TaskContext.tsx:100-106 | under unique ids the scan cuts exactly the task at its one position and carries that task |
| StoreProperties.MoveUnknownTaskIsNoop | src/context/TaskContext.tsx:100-108 | moving an id no column holds leaves every column as it was |
| StoreProperties.MoveExistingIsCutThenAppend | src/context/TaskContext.tsx:100-113 | under unique ids, a move to an existing target is: cut the task, then append it to the first matching column with that column's status |
| StoreProperties.MoveExistingTask | src/context/TaskContext.tsx:100-113 | under unique ids, the moved task ends up once, last, in the target with the target's status and all its other fields (including createdDate) unchanged; the source loses it; other columns and the order of other tasks are unchanged; a move to its own column re-appends it; the count is unchanged |
| StoreProperties.MoveToUnknownIsCut | src/context/TaskContext.tsx:108-113 | under unique ids, a move to a target id no column has is exactly cutting the task out |
| StoreProperties.MoveToUnknownColumnDropsTask | src/context/TaskContext.tsx:108-113 | under unique ids, a move to an unknown target cuts the task from its source and leaves every other column alone; the task is lost and the count drops by one |
| StoreProperties.MoveKeepsWellFormed | src/context/TaskContext.tsx:95-118 | for any task id and target, a move keeps both invariants |
| StoreProperties.MoveKeepsOtherTasks | src/context/TaskContext.tsx:100-113 | on any board, duplicate ids included, a move never loses a task of another id: each such task stays in its own column |
| StoreProperties.MoveScenario | src/context/TaskContext.tsx:95-118 | from todo=[A,B], moving A to inprogress gives todo=[B], inprogress=[A with status inprogress], done=[] |
| StoreProperties.LastMatchSkipsTail | src/context/TaskContext.tsx:100-106 | columns that do not hold the id, placed after the others, do not change the task the scan carries |
| StoreProperties.LastMatchIsFromLastColumn | src/context/TaskContext.tsx:100-106 | the carried task is the first task with the id in the last column that holds the id |
| StoreProperties.MoveDuplicateInOneColumn | src/context/TaskContext.tsx:100-113 | with the id twice in one column, a move cuts only the first copy and moves that one; the second copy stays |
| StoreProperties.MoveDuplicateAcrossColumnsLosesOne | src/context/TaskContext.tsx:100-113 | with the id in two columns, both copies are cut but only the later column's copy is placed, so the task count drops from 2 to 1 |
| StoreProperties.CreateTaskKeepsWellFormed | src/context/TaskContext.tsx:79-93 | with a fresh id, todo status and at most one todo column, creation keeps both invariants; the count rises by one (and the id appears) exactly when a todo column exists |
| StoreProperties.CreateTaskKeepsCallerStatus | src/context/TaskContext.tsx:80-84 | the caller's status is not overridden: a non-todo status breaks the status invariant when a todo column exists |
| StoreProperties.CreateTaskDuplicatesAcrossTodoColumns | src/context/TaskContext.tsx:86-92 | with two todo columns the new task is appended to both, so ids stop being unique |
| Session.CreateStep | src/context/TaskContext.tsx:79-93 | one creation with a fresh id and todo status keeps both invariants and the headers, and adds one task |
| Session.MoveKeepsHeaders | src/context/TaskContext.tsx:95-118 | a move never changes any column's id, title or status |
| Session.MoveStep | src/context/TaskContext.tsx:95-118 | a move to an existing column keeps both invariants and the headers, and keeps the task count |
| Session.ApplyKeepsWellFormed | src/context/TaskContext.tsx:79-118 | a single admissible store call keeps both invariants and the headers, and a creation adds exactly one task |
| Session.RunKeepsWellFormed | src/context/TaskContext.tsx:77-118 | every admissible sequence of calls keeps both invariants and the headers, and the count grows by exactly the number of creations |
| Session.SeedRunKeepsWellFormed | src/context/TaskContext.tsx:4-118 | from the seed board, every admissible run ends well formed with the same three columns and 4 + (number of creations) tasks |
| Text.LeadingSpace | src/components/CreateTaskModal.tsx:31 | the leading white-space run is all white space and is followed by a non-white-space character or by the end |
| Text.TrailingSpace | src/components/CreateTaskModal.tsx:31 | the trailing white-space run is all white space and is preceded by a non-white-space character or by the start |
| Text.Trim | src/components/CreateTaskModal.tsx:31-36 | the input is white space, then the result, then white space; the result has no white space at either end and is empty exactly when the input is all white space |
| Text.TrimStripsPadding | src/components/CreateTaskModal.tsx:31-36 | any string with no white space at either end, padded with white space on both sides, trims back to itself |
| Text.LeadingSpaceOfPadded | src/components/CreateTaskModal.tsx:31 | white-space padding before a non-white-space character is exactly the leading run |
| Text.TrailingSpaceOfPadded | src/components/CreateTaskModal.tsx:31 | white-space padding after a non-white-space character is exactly the trailing run |
| Text.TrimIdempotent | src/components/CreateTaskModal.tsx:34-36 | trimming twice gives the same result as trimming once |
| Text.TrimSingleChar | src/components/CreateTaskModal.tsx:31 | a one-character string trims to empty exactly when its character is in the stripped set (ECMAScript WhiteSpace plus LineTerminator), and otherwise to itself |
| CreateTaskForm.HandleSubmit | src/components/CreateTaskModal.tsx:28-49 | rejected exactly when summary or assignee is all white space, and then the form (including `open`) is unchanged; when accepted, the payload has trimmed text, the dates as given and status todo, and the form is reset to empty and closed |
| CreateTaskForm.SubmittedDataIsValid | src/components/CreateTaskModal.tsx:31-39 | an accepted payload has non-empty summary and assignee, no text field with white space at either end, and status todo; its summary is a white-space-padded infix of the input |
| CreateTaskForm.ResubmitIsRefused | src/components/CreateTaskModal.tsx:43-48 | after an accepted submit the form is blank, so submitting again is refused and changes nothing |
| CreateTaskForm.RefillReproducesPayload | src/components/CreateTaskModal.tsx:33-39 | typing an accepted payload back into the form produces the same payload |
| CreateTaskForm.BlankDescriptionIsAccepted | src/components/CreateTaskModal.tsx:31-35 | an all-white-space description does not block submission and is sent as the empty string |
| BoardView.DragStart | src/components/Board.tsx:26-29 | drag start records the task id both as the payload and as `draggedTask` |
| BoardView.DragStartMarksTheCard | src/components/Board.tsx:63-68 | after a drag start exactly the cards whose task has the dragged id are styled as dragging |
| BoardView.Drop | src/components/Board.tsx:16-24 | with an empty payload, or with `draggedTask` null or empty, nothing changes; otherwise the payload's task is moved to the dropped-on column and `draggedTask` is cleared |
| BoardView.IdleDropIsNoop | src/components/Board.tsx:9-24 | before any drag no card is dragging, and a drop changes nothing |
| BoardView.DropEndsDragging | src/components/Board.tsx:16-24 | after an accepted drop no card is styled as dragging; after a refused one the styling is as before |
| BoardView.DragThenDropMovesTask | src/components/Board.tsx:16-29 | a drag of a task with a non-empty id, followed by a drop, moves exactly that task and clears `draggedTask` |
| BoardView.MovedIdIsThePayload | src/components/Board.tsx:18-22 | when payload and `draggedTask` differ, the payload's task moves and the task named by `draggedTask` stays on the board, on any board |
| BoardView.DropOnRenderedColumnKeepsTasks | src/components/Board.tsx:43-48 | on a well-formed board, a drop on a rendered column keeps both invariants and never changes the task count |
| BoardView.AllEmptyExactlyWhenNoRows | src/components/Board.tsx:73-75 | every column shows the empty message exactly when the list view of the same board has no row |
| BoardView.HintWhereCreateLands | src/components/Board.tsx:76-78 | the creation hint shows exactly on an empty column where a creation would make the new task the only task |
| BoardView.CreateClearsTodoEmptyState | src/components/Board.tsx:73-77 | after a creation no todo column shows the empty message or the hint, and every other column's empty message is as before |
| BoardView.InitialBoardHasNoEmptyColumn | src/components/Board.tsx:73-80 | on the seed board no column shows the empty message |
| ListView.AllTasks | src/components/ListView.tsx:14 | the flattened list has the total number of tasks, and holds a task exactly when some column holds it |
| ListView.AllTasksAppend | src/components/ListView.tsx:14 | flattening two runs of columns gives the first run's tasks followed by the second's |
| ListView.AllTasksOrder | src/components/ListView.tsx:14 | task p of column c is at the position after all tasks of earlier columns plus p: column order, then in-column order |
| ListView.AllTasksIdsDistinct | src/components/ListView.tsx:36-37 | under unique ids, the rows have pairwise-distinct ids, which are their keys |
| ListView.Badge | src/components/ListView.tsx:41-45 | todo maps to secondary, inprogress to default and done to outline, each in both directions |
| ListView.ShipDateCell | src/components/ListView.tsx:49 | the cell is the `N/A` placeholder exactly when the ship date is null, and otherwise shows that date |
| ListView.ShipTextOfTask | src/components/ListView.tsx:49 | the ship cell reads `N/A` without a ship date, and otherwise the formatter's rendering of that date |
| ListView.Rows | src/components/ListView.tsx:36-51 | one row per task, in flattened order |
| ListView.RenderRow | src/components/ListView.tsx:37-50 | a row shows the task's summary and assignee, a status text that reads back as the task's status, the status's badge, and `N/A` exactly when there is no ship date |
| ListView.RowBadgeFollowsColumn | src/components/ListView.tsx:40-47 | on a status-consistent board, each row's badge and status text are those of the column the task sits in |
| ListView.ThreeColumnsListInOrder | src/components/ListView.tsx:14 | todo=[A], inprogress=[B], done=[C] lists as [A, B, C] |

## Left out

- JSX rendering, styling, the dialog/popover/calendar widgets and the React
  hooks (`useState`, `useCallback`, context). The model has no rendering
  layer; state variables become datatype fields.
- The missing-provider error of `useTasks` (src/context/TaskContext.tsx:127-133). It is framework plumbing.
- Generating ids and dates from the clock (src/context/TaskContext.tsx:82-83).
  Both are parameters instead. Id freshness is assumed in the invariant
  lemmas because the clock cannot guarantee it.
- `handleDragOver` (src/components/Board.tsx:11-14). It cancels the
  browser's default, which is what lets every column accept a drop (the
  model lets `Drop` target any column), and sets the move cursor.
- The task card's own drag-start handler (src/components/TaskCard.tsx:35-38).
  It writes the same id into the payload that the board's handler writes.
- Date formatting with date-fns and `toLocaleDateString`
  (src/components/TaskCard.tsx:15, src/components/ListView.tsx:49). These
  are locale-dependent library calls. `ShipCellText` takes the formatter as
  a parameter.
- `getPriorityColor` (src/components/TaskCard.tsx:18-27). It reads the
  current time and uses floating-point division.
- The board/list view toggle (src/pages/Index.tsx:16-18). It is plain UI
  state.
- Opening and cancelling the creation dialog. Both only set `open`.
- Aliasing between the spliced arrays and the previous React state. The
  model is functional; the resulting board is the same.

=== FILE: board.dfy ===
/** The board view's drag-and-drop handling and its per-column empty state.
    A drag carries two pieces of state: the payload written into the drag
    event's data transfer, and the board's own `draggedTask` variable. */
module BoardView {
  import opened TaskTypes
  import opened TaskStore
  import StoreProperties
  import ListView

  /** `payload` is the data transfer's `text/plain` entry (`""` when none was
      set, which is what reading an absent entry yields); `draggedTask` is the
      board's `string | null` state. */
  datatype DragState = DragState(payload: string, draggedTask: Option<string>)

  /** Before any drag: no payload and `draggedTask` null. */
  const Idle: DragState := DragState("", None)

  /** JavaScript truthiness of a `string | null`: null and `""` are falsy. */
  predicate Truthy(s: Option<string>)
  {
    s.Some? && s.value != ""
  }

  /** `handleDragStart`: the task id becomes both the payload and `draggedTask`. */
  function DragStart(d: DragState, taskId: string): (r: DragState)
    ensures r.payload == taskId && r.draggedTask == Some(taskId)
  {
    DragState(taskId, Some(taskId))
  }

  datatype DropResult = DropResult(drag: DragState, columns: seq<Column>)

  /** `handleDrop` on the column with id `targetColumnId`: when the payload
      and `draggedTask` are both truthy, move the payload's task there and
      clear `draggedTask`; otherwise do nothing. */
  function Drop(d: DragState, cs: seq<Column>, targetColumnId: string): (r: DropResult)
    ensures d.payload == "" ==> r == DropResult(d, cs)
    ensures !Truthy(d.draggedTask) ==> r == DropResult(d, cs)
    ensures d.payload != "" && Truthy(d.draggedTask) ==>
      r.columns == MoveTask(cs, d.payload, targetColumnId) && r.drag == d.(draggedTask := None)
  {
    if d.payload == "" || !Truthy(d.draggedTask) then DropResult(d, cs)
    else DropResult(d.(draggedTask := None), MoveTask(cs, d.payload, targetColumnId))
  }

  /** A drag started on a task with a non-empty id and dropped on a column
      moves exactly that task there and leaves `draggedTask` null. */
  lemma DragThenDropMovesTask(d: DragState, cs: seq<Column>, taskId: string, targetColumnId: string)
    requires taskId != ""
    ensures Drop(DragStart(d, taskId), cs, targetColumnId)
      == DropResult(DragState(taskId, None), MoveTask(cs, taskId, targetColumnId))
  {
  }

  /** The id moved is the payload's, not `draggedTask`'s: when the two
      disagree, the payload's task moves and the other stays. */
  lemma MovedIdIsThePayload(cs: seq<Column>, payload: string, other: string, targetColumnId: string)
    requires payload != "" && other != "" && payload != other
    requires Contains(cs, other)
    ensures var r := Drop(DragState(payload, Some(other)), cs, targetColumnId);
      r.columns == MoveTask(cs, payload, targetColumnId) && r.drag.draggedTask == None
    ensures Contains(Drop(DragState(payload, Some(other)), cs, targetColumnId).columns, other)
  {
    StoreProperties.MoveKeepsOtherTasks(cs, payload, targetColumnId, other);
  }

  /** A drop on a column the board renders keeps the store invariants and
      never loses a task: the target always exists. */
  lemma DropOnRenderedColumnKeepsTasks(d: DragState, cs: seq<Column>, j: nat)
    requires WellFormed(cs)
    requires j < |cs|
    ensures WellFormed(Drop(d, cs, cs[j].id).columns)
    ensures TotalCount(Drop(d, cs, cs[j].id).columns) == TotalCount(cs)
  {
    var r := Drop(d, cs, cs[j].id);
    if d.payload != "" && Truthy(d.draggedTask) {
      StoreProperties.MoveKeepsWellFormed(cs, d.payload, cs[j].id);
      if Contains(cs, d.payload) {
        var i, k :| 0 <= i < |cs| && 0 <= k < |cs[i].tasks| && cs[i].tasks[k].id == d.payload;
        var f := FindColumn(cs, cs[j].id);
        StoreProperties.MoveExistingTask(cs, d.payload, cs[j].id, i, k, f.value);
      } else {
        StoreProperties.MoveUnknownTaskIsNoop(cs, d.payload, cs[j].id);
      }
    }
  }

  /** `isDragging` of a task card: the card's task is the one being dragged. */
  predicate IsDragging(draggedTask: Option<string>, t: Task)
  {
    draggedTask == Some(t.id)
  }

  /** Before any drag no card is marked as dragging, and a drop changes
      nothing. */
  lemma IdleDropIsNoop(cs: seq<Column>, targetColumnId: string, t: Task)
    ensures !IsDragging(Idle.draggedTask, t)
    ensures Drop(Idle, cs, targetColumnId) == DropResult(Idle, cs)
  {
  }

  /** A drag start marks exactly the cards whose task has the dragged id. */
  lemma DragStartMarksTheCard(d: DragState, taskId: string, t: Task)
    ensures IsDragging(DragStart(d, taskId).draggedTask, t) <==> t.id == taskId
  {
  }

  /** After an accepted drop no card is marked as dragging; after a refused
      one the mark is as it was. */
  lemma DropEndsDragging(d: DragState, cs: seq<Column>, targetColumnId: string, t: Task)
    ensures d.payload != "" && Truthy(d.draggedTask) ==>
      !IsDragging(Drop(d, cs, targetColumnId).drag.draggedTask, t)
    ensures !(d.payload != "" && Truthy(d.draggedTask)) ==>
      (IsDragging(Drop(d, cs, targetColumnId).drag.draggedTask, t) <==> IsDragging(d.draggedTask, t))
  {
  }

  /** A column shows "No tasks yet" exactly when it holds no task. */
  predicate ShowsEmptyMessage(col: Column)
  {
    |col.tasks| == 0
  }

  /** The extra "Create a new task" hint: only on an empty todo column. */
  predicate ShowsCreateHint(col: Column)
  {
    ShowsEmptyMessage(col) && col.status == Todo
  }

  /** Every column shows the empty message exactly when the list view,
      which flattens the same board, has no row at all. */
  lemma AllEmptyExactlyWhenNoRows(cs: seq<Column>)
    ensures (forall c :: 0 <= c < |cs| ==> ShowsEmptyMessage(cs[c])) <==> ListView.AllTasks(cs) == []
  {
    var all := ListView.AllTasks(cs);
    if all != [] {
      assert all[0] in all;
    }
    if exists c :: 0 <= c < |cs| && !ShowsEmptyMessage(cs[c]) {
      var c :| 0 <= c < |cs| && !ShowsEmptyMessage(cs[c]);
      assert cs[c].tasks[0] in cs[c].tasks;
      assert cs[c].tasks[0] in all;
    }
  }

  /** The creation hint shows exactly on the empty columns a creation would
      fill: there the new task becomes the column's only task. */
  lemma HintWhereCreateLands(cs: seq<Column>, data: TaskData, newId: string, now: Date, c: int)
    requires 0 <= c < |cs|
    ensures ShowsCreateHint(cs[c]) <==>
      ShowsEmptyMessage(cs[c]) && CreateTask(cs, data, newId, now)[c].tasks == [NewTask(data, newId, now)]
  {
  }

  /** After a task is created no todo column shows the empty message (so
      none shows the hint), and every other column's message is as before. */
  lemma CreateClearsTodoEmptyState(cs: seq<Column>, data: TaskData, newId: string, now: Date)
    ensures var r := CreateTask(cs, data, newId, now);
      forall c :: 0 <= c < |r| ==>
        && (cs[c].status == Todo ==> !ShowsEmptyMessage(r[c]) && !ShowsCreateHint(r[c]))
        && (cs[c].status != Todo ==> (ShowsEmptyMessage(r[c]) <==> ShowsEmptyMessage(cs[c])))
  {
  }

  /** The seed board shows no empty-state message at all. */
  lemma InitialBoardHasNoEmptyColumn()
    ensures forall c :: 0 <= c < |InitialColumns()| ==> !ShowsEmptyMessage(InitialColumns()[c])
  {
    var cs := InitialColumns();
    assert |cs[0].tasks| == 2 && |cs[1].tasks| == 1 && |cs[2].tasks| == 1;
  }
}

=== FILE: form.dfy ===
/** The task creation form's submit handler: the required-field guard, the
    payload it hands to task creation, and the reset that follows. */
module CreateTaskForm {
  import opened TaskTypes
  import opened Text

  /** The form's state variables: dialog visibility and the five inputs. */
  datatype FormState = FormState(
    open: bool,
    summary: string,
    description: string,
    assignee: string,
    startDate: Option<Date>,
    shipDate: Option<Date>)

  /** The state on mount: closed, empty text, no dates. */
  const EmptyForm: FormState := FormState(false, "", "", "", None, None)

  /** What a submit leaves behind: the new form state and the payload passed
      to `onCreateTask`, if any. */
  datatype Submission = Submission(form: FormState, created: Option<TaskData>)

  /** `handleSubmit`: refuse when the summary or the assignee is blank after
      trimming; otherwise pass the trimmed text, the dates as chosen and the
      todo status, then clear the inputs and close the dialog. */
  function HandleSubmit(f: FormState): (r: Submission)
    ensures r.created.None? <==> AllWhitespace(f.summary) || AllWhitespace(f.assignee)
    ensures r.created.None? ==> r.form == f
    ensures r.created.Some? ==> r.form == EmptyForm
    ensures r.created.Some? ==>
      && r.created.value.summary == Trim(f.summary)
      && r.created.value.description == Trim(f.description)
      && r.created.value.assignee == Trim(f.assignee)
      && r.created.value.startDate == f.startDate
      && r.created.value.shipDate == f.shipDate
      && r.created.value.status == Todo
  {
    if |Trim(f.summary)| == 0 || |Trim(f.assignee)| == 0 then
      Submission(f, None)
    else
      var data := TaskData(Trim(f.summary), Trim(f.description), Trim(f.assignee),
                           f.startDate, f.shipDate, Todo);
      Submission(EmptyForm, Some(data))
  }

  /** The shape of every payload the form can produce: summary and assignee
      non-empty, no text field with white space at either end, status todo. */
  ghost predicate ValidTaskData(d: TaskData)
  {
    |d.summary| > 0 && |d.assignee| > 0
    && Trimmed(d.summary) && Trimmed(d.description) && Trimmed(d.assignee)
    && d.status == Todo
  }

  /** Every accepted payload is valid, and each of its text fields is the
      corresponding input with white space stripped from both ends. */
  lemma SubmittedDataIsValid(f: FormState)
    requires HandleSubmit(f).created.Some?
    ensures ValidTaskData(HandleSubmit(f).created.value)
    ensures var d := HandleSubmit(f).created.value;
      exists a, b :: 0 <= a <= b <= |f.summary| && d.summary == f.summary[a..b]
        && AllWhitespace(f.summary[..a]) && AllWhitespace(f.summary[b..])
  {
    var d := HandleSubmit(f).created.value;
    var a := LeadingSpace(f.summary);
    var b := a + |d.summary|;
    assert d.summary == f.summary[a..b];
  }

  /** After an accepted submit the form is blank, so submitting again is
      refused and changes nothing. */
  lemma ResubmitIsRefused(f: FormState)
    requires HandleSubmit(f).created.Some?
    ensures HandleSubmit(HandleSubmit(f).form) == Submission(EmptyForm, None)
  {
  }

  /** Typing an accepted payload back into the form yields the same payload:
      trimming an already trimmed field changes nothing. */
  lemma {:induction false} RefillReproducesPayload(f: FormState, g: FormState)
    requires HandleSubmit(f).created.Some?
    requires var d := HandleSubmit(f).created.value;
      g.summary == d.summary && g.description == d.description && g.assignee == d.assignee
      && g.startDate == d.startDate && g.shipDate == d.shipDate
    ensures HandleSubmit(g).created == HandleSubmit(f).created
  {
    TrimIdempotent(f.summary);
    TrimIdempotent(f.description);
    TrimIdempotent(f.assignee);
  }

  /** A description that is only white space does not block a submit; it is
      sent as the empty string. */
  lemma BlankDescriptionIsAccepted(f: FormState)
    requires !AllWhitespace(f.summary) && !AllWhitespace(f.assignee)
    requires AllWhitespace(f.description)
    ensures HandleSubmit(f).created.Some?
    ensures HandleSubmit(f).created.value.description == ""
  {
  }
}

=== FILE: list_view.dfy ===
/** The list view: every task of every column in one table, in column order
    and then in-column order, with a status badge and a ship-date cell. */
module ListView {
  import opened TaskTypes

  /** `columns.flatMap(column => column.tasks)`. */
  function AllTasks(cs: seq<Column>): (r: seq<Task>)
    ensures |r| == TotalCount(cs)
    ensures forall t :: t in r <==> exists c :: 0 <= c < |cs| && t in cs[c].tasks
  {
    if |cs| == 0 then []
    else
      var n := |cs| - 1;
      var r := AllTasks(cs[..n]) + cs[n].tasks;
      assert forall c :: 0 <= c < n ==> cs[..n][c] == cs[c];
      r
  }

  /** Flattening distributes over splitting the columns. */
  lemma {:induction false} AllTasksAppend(a: seq<Column>, b: seq<Column>)
    ensures AllTasks(a + b) == AllTasks(a) + AllTasks(b)
    decreases |b|
  {
    if |b| == 0 {
      assert a + b == a;
    } else {
      var n := |b| - 1;
      assert (a + b)[..|a + b| - 1] == a + b[..n];
      AllTasksAppend(a, b[..n]);
    }
  }

  /** The flattened list keeps column order and then in-column order: task
      `p` of column `c` sits after all tasks of the columns before `c`. */
  lemma AllTasksOrder(cs: seq<Column>, c: nat, p: nat)
    requires c < |cs| && p < |cs[c].tasks|
    ensures TotalCount(cs[..c]) + p < |AllTasks(cs)|
    ensures AllTasks(cs)[TotalCount(cs[..c]) + p] == cs[c].tasks[p]
  {
    var front, back := cs[..c], cs[c + 1..];
    assert cs == front + [cs[c]] + back;
    AllTasksAppend(front + [cs[c]], back);
    AllTasksAppend(front, [cs[c]]);
    AllTasksOfOne(cs[c]);
    assert AllTasks(cs) == AllTasks(front) + cs[c].tasks + AllTasks(back);
  }

  /** A single column flattens to its own tasks. */
  lemma AllTasksOfOne(col: Column)
    ensures AllTasks([col]) == col.tasks
  {
    assert [col][..0] == [];
  }

  /** Under unique ids the rows have distinct ids, so the row keys differ. */
  lemma {:induction false} AllTasksIdsDistinct(cs: seq<Column>)
    requires UniqueIds(cs)
    ensures forall x, y :: 0 <= x < y < |AllTasks(cs)| ==> AllTasks(cs)[x].id != AllTasks(cs)[y].id
    decreases |cs|
  {
    if |cs| > 0 {
      var n := |cs| - 1;
      var front := cs[..n];
      assert UniqueIds(front) by {
        forall c, p, d, q |
          0 <= c < |front| && 0 <= p < |front[c].tasks| && 0 <= d < |front| && 0 <= q < |front[d].tasks| &&
          front[c].tasks[p].id == front[d].tasks[q].id
          ensures c == d && p == q
        {
          assert front[c] == cs[c] && front[d] == cs[d];
        }
      }
      AllTasksIdsDistinct(front);
      var r := AllTasks(cs);
      var m := |AllTasks(front)|;
      forall x, y | 0 <= x < y < |r|
        ensures r[x].id != r[y].id
      {
        if y >= m {
          assert r[y] == cs[n].tasks[y - m];
          if x >= m {
            assert r[x] == cs[n].tasks[x - m];
          } else {
            var t := AllTasks(front)[x];
            assert t in AllTasks(front);
            var c :| 0 <= c < |front| && t in front[c].tasks;
            var p :| 0 <= p < |front[c].tasks| && front[c].tasks[p] == t;
            assert cs[c].tasks[p] == r[x];
          }
        }
      }
    }
  }

  /** The badge variants the status column uses. */
  datatype BadgeVariant = Secondary | Default | Outline

  /** Status badge: todo is secondary, in progress is default, done is outline. */
  function Badge(s: Status): (v: BadgeVariant)
    ensures v == Secondary <==> s == Todo
    ensures v == Default <==> s == InProgress
    ensures v == Outline <==> s == Done
  {
    match s
    case Todo => Secondary
    case InProgress => Default
    case Done => Outline
  }

  /** The ship-date cell: the date (formatted for the locale) or `N/A`. */
  datatype ShipCell = ShipDate(date: Date) | NotAvailable

  /** The cell's text: `N/A`, or the date as the locale formats it (the
      formatter is a parameter: it is locale-dependent library code). */
  function ShipCellText(cell: ShipCell, formatDate: Date -> string): string
  {
    match cell
    case NotAvailable => "N/A"
    case ShipDate(d) => formatDate(d)
  }

  /** The text in a task's ship-date cell: `N/A` without a ship date,
      otherwise the formatter's rendering of that date. */
  lemma ShipTextOfTask(t: Task, formatDate: Date -> string)
    ensures t.shipDate.None? ==> ShipCellText(ShipDateCell(t), formatDate) == "N/A"
    ensures t.shipDate.Some? ==> ShipCellText(ShipDateCell(t), formatDate) == formatDate(t.shipDate.value)
  {
  }

  function ShipDateCell(t: Task): (cell: ShipCell)
    ensures cell == NotAvailable <==> t.shipDate.None?
    ensures cell.ShipDate? ==> t.shipDate == Some(cell.date)
  {
    if t.shipDate.Some? then ShipDate(t.shipDate.value) else NotAvailable
  }

  /** One table row: summary, assignee, the status text in its badge, and
      the ship-date cell. */
  datatype Row = Row(summary: string, assignee: string, statusText: string, badge: BadgeVariant, ship: ShipCell)

  /** A task's row: its own summary and assignee, a status text that reads
      back as the task's status, the badge of that status, and a ship cell
      that is the placeholder exactly when there is no ship date. */
  function RenderRow(t: Task): (r: Row)
    ensures r.summary == t.summary && r.assignee == t.assignee
    ensures ParseStatus(r.statusText) == Some(t.status)
    ensures r.badge == Badge(t.status)
    ensures r.ship == NotAvailable <==> t.shipDate.None?
  {
    StatusNameRoundTrip(t.status, t.status);
    Row(t.summary, t.assignee, StatusName(t.status), Badge(t.status), ShipDateCell(t))
  }

  /** The table body: one row per flattened task, in order. */
  function Rows(cs: seq<Column>): (rows: seq<Row>)
    ensures |rows| == TotalCount(cs)
    ensures forall x :: 0 <= x < |rows| ==> rows[x] == RenderRow(AllTasks(cs)[x])
  {
    seq(|AllTasks(cs)|, x requires 0 <= x < |AllTasks(cs)| => RenderRow(AllTasks(cs)[x]))
  }

  /** On a board whose tasks carry their column's status, every row's badge
      is the one of the column the task sits in. */
  lemma RowBadgeFollowsColumn(cs: seq<Column>, c: nat, p: nat)
    requires StatusConsistent(cs)
    requires c < |cs| && p < |cs[c].tasks|
    ensures TotalCount(cs[..c]) + p < |Rows(cs)|
    ensures Rows(cs)[TotalCount(cs[..c]) + p].badge == Badge(cs[c].status)
    ensures Rows(cs)[TotalCount(cs[..c]) + p].statusText == StatusName(cs[c].status)
  {
    AllTasksOrder(cs, c, p);
  }

  /** The example board todo=[A], inprogress=[B], done=[C] lists A, B, C. */
  lemma ThreeColumnsListInOrder(a: Task, b: Task, c: Task)
    ensures AllTasks([Column("todo", "To Do", Todo, [a]),
                      Column("inprogress", "In Progress", InProgress, [b]),
                      Column("done", "Done", Done, [c])]) == [a, b, c]
  {
    var cs := [Column("todo", "To Do", Todo, [a]),
               Column("inprogress", "In Progress", InProgress, [b]),
               Column("done", "Done", Done, [c])];
    assert cs[..1][..0] == [];
    assert AllTasks(cs[..1]) == [a];
    assert cs[..2][..1] == cs[..1];
    assert AllTasks(cs[..2]) == [a, b];
    assert cs[..3] == cs;
  }
}

=== FILE: session.dfy ===
/** Sequences of store calls, as the board and the form issue them, starting
    from the seed board. */
module Session {
  import opened TaskTypes
  import opened TaskStore
  import opened StoreProperties

  datatype Action =
    | Create(data: TaskData, newId: string, now: Date)
    | Move(taskId: string, targetColumnId: string)

  function Apply(cs: seq<Column>, a: Action): seq<Column>
  {
    match a
    case Create(data, newId, now) => CreateTask(cs, data, newId, now)
    case Move(taskId, targetColumnId) => MoveTask(cs, taskId, targetColumnId)
  }

  function Run(cs: seq<Column>, actions: seq<Action>): seq<Column>
    decreases |actions|
  {
    if |actions| == 0 then cs else Run(Apply(cs, actions[0]), actions[1..])
  }

  /** The calls the invariant proofs admit: a creation with status todo (as
      the form sends) and an id not yet on the board, and a move to a
      rendered column. */
  ghost predicate Admissible(cs: seq<Column>, a: Action)
  {
    match a
    case Create(data, newId, _) => data.status == Todo && !Contains(cs, newId)
    case Move(_, targetColumnId) => exists c :: 0 <= c < |cs| && cs[c].id == targetColumnId
  }

  ghost predicate AdmissibleRun(cs: seq<Column>, actions: seq<Action>)
    decreases |actions|
  {
    |actions| == 0 || (Admissible(cs, actions[0]) && AdmissibleRun(Apply(cs, actions[0]), actions[1..]))
  }

  function CreateCount(actions: seq<Action>): nat
  {
    if |actions| == 0 then 0 else (if actions[0].Create? then 1 else 0) + CreateCount(actions[1..])
  }

  /** The column headers (id, title, status) of a board. */
  function Headers(cs: seq<Column>): seq<(string, string, Status)>
  {
    seq(|cs|, c requires 0 <= c < |cs| => (cs[c].id, cs[c].title, cs[c].status))
  }

  lemma CreateStep(cs: seq<Column>, data: TaskData, newId: string, now: Date)
    requires WellFormed(cs) && SingleTodoColumn(cs) && HasTodoColumn(cs)
    requires data.status == Todo && !Contains(cs, newId)
    ensures WellFormed(CreateTask(cs, data, newId, now))
    ensures Headers(CreateTask(cs, data, newId, now)) == Headers(cs)
    ensures TotalCount(CreateTask(cs, data, newId, now)) == TotalCount(cs) + 1
  {
    CreateTaskKeepsWellFormed(cs, data, newId, now);
    var r := CreateTask(cs, data, newId, now);
    assert Headers(r) == Headers(cs);
  }

  lemma MoveStep(cs: seq<Column>, taskId: string, targetColumnId: string)
    requires WellFormed(cs)
    requires exists c :: 0 <= c < |cs| && cs[c].id == targetColumnId
    ensures WellFormed(MoveTask(cs, taskId, targetColumnId))
    ensures Headers(MoveTask(cs, taskId, targetColumnId)) == Headers(cs)
    ensures TotalCount(MoveTask(cs, taskId, targetColumnId)) == TotalCount(cs)
  {
    MoveKeepsWellFormed(cs, taskId, targetColumnId);
    MoveKeepsHeaders(cs, taskId, targetColumnId);
    if Contains(cs, taskId) {
      var i, k :| 0 <= i < |cs| && 0 <= k < |cs[i].tasks| && cs[i].tasks[k].id == taskId;
      var f := FindColumn(cs, targetColumnId);
      MoveExistingTask(cs, taskId, targetColumnId, i, k, f.value);
    } else {
      MoveUnknownTaskIsNoop(cs, taskId, targetColumnId);
    }
  }

  lemma MoveKeepsHeaders(cs: seq<Column>, taskId: string, targetColumnId: string)
    ensures Headers(MoveTask(cs, taskId, targetColumnId)) == Headers(cs)
  {
    var r := MoveTask(cs, taskId, targetColumnId);
    assert forall c :: 0 <= c < |cs| ==> Headers(r)[c] == Headers(cs)[c];
  }

  /** One admissible call keeps both invariants and the headers; a creation
      adds one task and a move none. */
  lemma ApplyKeepsWellFormed(cs: seq<Column>, a: Action)
    requires WellFormed(cs) && SingleTodoColumn(cs) && HasTodoColumn(cs)
    requires Admissible(cs, a)
    ensures WellFormed(Apply(cs, a))
    ensures Headers(Apply(cs, a)) == Headers(cs)
    ensures TotalCount(Apply(cs, a)) == TotalCount(cs) + (if a.Create? then 1 else 0)
  {
    match a
    case Create(data, newId, now) => CreateStep(cs, data, newId, now);
    case Move(taskId, targetColumnId) => MoveStep(cs, taskId, targetColumnId);
  }

  /** Boards with the same headers have the same todo columns. */
  lemma SameHeadersSameTodoShape(cs: seq<Column>, next: seq<Column>)
    requires Headers(next) == Headers(cs)
    requires SingleTodoColumn(cs) && HasTodoColumn(cs)
    ensures SingleTodoColumn(next) && HasTodoColumn(next)
  {
    assert |next| == |Headers(next)| == |Headers(cs)| == |cs|;
    forall c | 0 <= c < |cs| ensures next[c].status == cs[c].status {
      assert Headers(next)[c] == Headers(cs)[c];
    }
  }

  /** Every admissible run keeps both invariants and the column headers, and
      the task count grows by exactly the number of creations. */
  lemma {:induction false} RunKeepsWellFormed(cs: seq<Column>, actions: seq<Action>)
    requires WellFormed(cs) && SingleTodoColumn(cs) && HasTodoColumn(cs)
    requires AdmissibleRun(cs, actions)
    ensures WellFormed(Run(cs, actions))
    ensures Headers(Run(cs, actions)) == Headers(cs)
    ensures TotalCount(Run(cs, actions)) == TotalCount(cs) + CreateCount(actions)
    decreases |actions|
  {
    if |actions| > 0 {
      var next := Apply(cs, actions[0]);
      assert Admissible(cs, actions[0]) && AdmissibleRun(next, actions[1..]);
      assert Run(cs, actions) == Run(next, actions[1..]);
      assert CreateCount(actions) == (if actions[0].Create? then 1 else 0) + CreateCount(actions[1..]);
      ApplyKeepsWellFormed(cs, actions[0]);
      SameHeadersSameTodoShape(cs, next);
      RunKeepsWellFormed(next, actions[1..]);
    }
  }

  /** From the seed board, any admissible run ends in a well-formed board
      with the same three columns and four tasks plus one per creation. */
  lemma SeedRunKeepsWellFormed(actions: seq<Action>)
    requires AdmissibleRun(InitialColumns(), actions)
    ensures WellFormed(Run(InitialColumns(), actions))
    ensures Headers(Run(InitialColumns(), actions)) == Headers(InitialColumns())
    ensures TotalCount(Run(InitialColumns(), actions)) == 4 + CreateCount(actions)
  {
    var cs := InitialColumns();
    InitialColumnsWellFormed();
    assert cs[0].status == Todo;
    RunKeepsWellFormed(cs, actions);
  }
}

=== FILE: store.dfy ===
/** The in-memory task store: the seed board and the two mutations, each a
    pure transformation of the column sequence. */
module TaskStore {
  import opened TaskTypes

  /** The seed board: one column per status, four demo tasks. */
  function InitialColumns(): (cs: seq<Column>)
    ensures |cs| == 3
    ensures forall c :: 0 <= c < |cs| ==> cs[c].id == StatusName(cs[c].status)
    ensures forall c, d :: 0 <= c < |cs| && 0 <= d < |cs| && cs[c].status == cs[d].status ==> c == d
    ensures TotalCount(cs) == 4
  {
    var cs := [TodoSeed(), InProgressSeed(), DoneSeed()];
    assert TotalCount(cs[..1]) == 2 by { assert cs[..1][..0] == []; }
    assert TotalCount(cs[..2]) == 3 by { assert cs[..2][..1] == cs[..1]; }
    assert cs[..3] == cs;
    cs
  }

  function TodoSeed(): (col: Column)
    ensures col.id == StatusName(Todo) && col.status == Todo
    ensures col.tasks == [DesignAuthFlow(), UserDashboard()]
  {
    Column("todo", "To Do", Todo, [DesignAuthFlow(), UserDashboard()])
  }

  function InProgressSeed(): (col: Column)
    ensures col.id == StatusName(InProgress) && col.status == InProgress
    ensures col.tasks == [DatabaseSchema()]
  {
    Column("inprogress", "In Progress", InProgress, [DatabaseSchema()])
  }

  function DoneSeed(): (col: Column)
    ensures col.id == StatusName(Done) && col.status == Done
    ensures col.tasks == [ProjectSetup()]
  {
    Column("done", "Done", Done, [ProjectSetup()])
  }

  function DesignAuthFlow(): (t: Task)
    ensures t.id == "1" && t.status == Todo
  {
    Task("1", AuthFlowSummary, AuthFlowDescription,
         "John Doe", Date(1717977600000), None, Some(Date(1718841600000)), Todo)
  }

  function UserDashboard(): (t: Task)
    ensures t.id == "2" && t.status == Todo
  {
    Task("2", DashboardSummary, DashboardDescription,
         "Jane Smith", Date(1718150400000), Some(Date(1718409600000)), Some(Date(1719273600000)), Todo)
  }

  function DatabaseSchema(): (t: Task)
    ensures t.id == "3" && t.status == InProgress
  {
    Task("3", SchemaSummary, SchemaDescription,
         "Bob Johnson", Date(1717804800000), Some(Date(1717977600000)), Some(Date(1718668800000)), InProgress)
  }

  function ProjectSetup(): (t: Task)
    ensures t.id == "4" && t.status == Done
  {
    Task("4", SetupSummary, SetupDescription,
         "Alice Wilson", Date(1717545600000), Some(Date(1717545600000)), Some(Date(1717718400000)), Done)
  }

  /** The seed tasks' summaries and descriptions. */
  const AuthFlowSummary: string := "Design user authentication flow"
  const AuthFlowDescription: string := "Create wireframes and mockups for the login and registration process"
  const DashboardSummary: string := "Implement user dashboard"
  const DashboardDescription: string := "Build the main dashboard with user statistics and recent activity"
  const SchemaSummary: string := "Setup database schema"
  const SchemaDescription: string := "Create and configure the database tables for user management"
  const SetupSummary: string := "Project setup and configuration"
  const SetupDescription: string := "Initialize the project structure and configure development environment"

  /** The seed board satisfies both store invariants. */
  lemma InitialColumnsWellFormed()
    ensures WellFormed(InitialColumns())
  {
    var cs := InitialColumns();
    assert cs[0].tasks == [DesignAuthFlow(), UserDashboard()];
    assert cs[1].tasks == [DatabaseSchema()] && cs[2].tasks == [ProjectSetup()];
    forall c, p, d, q |
      0 <= c < |cs| && 0 <= p < |cs[c].tasks| && 0 <= d < |cs| && 0 <= q < |cs[d].tasks| &&
      cs[c].tasks[p].id == cs[d].tasks[q].id
      ensures c == d && p == q
    {
      var key := [['1', '2'], ['3'], ['4']];
      assert cs[c].tasks[p].id[0] == key[c][p] && cs[d].tasks[q].id[0] == key[d][q];
    }
  }

  // ---------------------------------------------------------------- create

  /** The task `createTask` builds: the caller's fields, spread as given
      (status included), plus the generated id and creation date. */
  function NewTask(data: TaskData, newId: string, now: Date): (t: Task)
    ensures t.id == newId && t.createdDate == now
    ensures DataOf(t) == data
  {
    Task(newId, data.summary, data.description, data.assignee, now,
         data.startDate, data.shipDate, data.status)
  }

  /** `createTask`: append the new task to every column whose status is todo.
      The id and the clock reading are supplied by the caller. */
  function CreateTask(cs: seq<Column>, data: TaskData, newId: string, now: Date): (r: seq<Column>)
    ensures |r| == |cs|
    ensures forall c :: 0 <= c < |r| ==>
      r[c].id == cs[c].id && r[c].title == cs[c].title && r[c].status == cs[c].status
    ensures forall c :: 0 <= c < |r| && cs[c].status != Todo ==> r[c] == cs[c]
    ensures forall c :: 0 <= c < |r| && cs[c].status == Todo ==>
      |r[c].tasks| == |cs[c].tasks| + 1 &&
      r[c].tasks[..|cs[c].tasks|] == cs[c].tasks &&
      r[c].tasks[|cs[c].tasks|] == NewTask(data, newId, now)
  {
    seq(|cs|, c requires 0 <= c < |cs| =>
      if cs[c].status == Todo
      then cs[c].(tasks := cs[c].tasks + [NewTask(data, newId, now)])
      else cs[c])
  }

  // ------------------------------------------------------------------ move

  /** `findIndex`: the first position holding a task with this id. */
  function FindTaskIndex(ts: seq<Task>, id: string): (r: Option<nat>)
    ensures r.None? <==> forall p :: 0 <= p < |ts| ==> ts[p].id != id
    ensures r.Some? ==> r.value < |ts| && ts[r.value].id == id
    ensures r.Some? ==> forall p :: 0 <= p < r.value ==> ts[p].id != id
  {
    if |ts| == 0 then None
    else if ts[0].id == id then Some(0)
    else
      match FindTaskIndex(ts[1..], id)
      case None => None
      case Some(k) => Some(k + 1)
  }

  /** `find` over the columns: the first column with this id. */
  function FindColumn(cs: seq<Column>, columnId: string): (r: Option<nat>)
    ensures r.None? <==> forall c :: 0 <= c < |cs| ==> cs[c].id != columnId
    ensures r.Some? ==> r.value < |cs| && cs[r.value].id == columnId
    ensures r.Some? ==> forall c :: 0 <= c < r.value ==> cs[c].id != columnId
  {
    if |cs| == 0 then None
    else if cs[0].id == columnId then Some(0)
    else
      match FindColumn(cs[1..], columnId)
      case None => None
      case Some(k) => Some(k + 1)
  }

  /** The sequence with position `k` cut out (`splice(k, 1)`). */
  function RemoveAt<T>(s: seq<T>, k: nat): (r: seq<T>)
    requires k < |s|
    ensures |r| == |s| - 1
    ensures forall p :: 0 <= p < k ==> r[p] == s[p]
    ensures forall p :: k <= p < |r| ==> r[p] == s[p + 1]
  {
    s[..k] + s[k + 1..]
  }

  /** One column after the scan: its first task with the id, if any, is cut out. */
  function SpliceFirst(col: Column, id: string): (r: Column)
    ensures r.id == col.id && r.title == col.title && r.status == col.status
    ensures (forall p :: 0 <= p < |col.tasks| ==> col.tasks[p].id != id) ==> r == col
    ensures forall k ::
      (0 <= k < |col.tasks| && col.tasks[k].id == id && forall p :: 0 <= p < k ==> col.tasks[p].id != id)
      ==> r.tasks == RemoveAt(col.tasks, k)
  {
    match FindTaskIndex(col.tasks, id)
    case None => col
    case Some(k) => col.(tasks := RemoveAt(col.tasks, k))
  }

  /** The scan of every column (the `forEach` loop's splices). */
  function SpliceAll(cs: seq<Column>, id: string): (r: seq<Column>)
    ensures |r| == |cs|
    ensures forall c :: 0 <= c < |r| ==> r[c] == SpliceFirst(cs[c], id)
  {
    seq(|cs|, c requires 0 <= c < |cs| => SpliceFirst(cs[c], id))
  }

  /** The task the `forEach` loop carries out of the scan: each matching
      column overwrites the previous one, so the last column with a match wins. */
  function LastMatch(cs: seq<Column>, id: string): (r: Option<Task>)
    ensures r.None? <==> !Contains(cs, id)
    ensures r.Some? ==> r.value.id == id
    ensures r.Some? ==> exists c, p :: 0 <= c < |cs| && 0 <= p < |cs[c].tasks| && cs[c].tasks[p] == r.value
  {
    if |cs| == 0 then None
    else
      var n := |cs| - 1;
      match FindTaskIndex(cs[n].tasks, id)
      case Some(k) => Some(cs[n].tasks[k])
      case None =>
        assert forall c :: 0 <= c < n ==> cs[..n][c] == cs[c];
        LastMatch(cs[..n], id)
  }

  /** The second half of `moveTask`: if the scan carried a task and some
      column has the target id, give the task the first such column's status
      and append it there; otherwise return the scanned board as it is. */
  function Place(spliced: seq<Column>, carried: Option<Task>, targetColumnId: string): (r: seq<Column>)
    ensures |r| == |spliced|
    ensures forall c :: 0 <= c < |r| ==>
      r[c].id == spliced[c].id && r[c].title == spliced[c].title && r[c].status == spliced[c].status
    ensures carried.None? ==> r == spliced
    ensures (forall c :: 0 <= c < |spliced| ==> spliced[c].id != targetColumnId) ==> r == spliced
    ensures forall j ::
      (carried.Some? && 0 <= j < |spliced| && spliced[j].id == targetColumnId &&
       forall c :: 0 <= c < j ==> spliced[c].id != targetColumnId)
      ==> r == spliced[j := spliced[j].(tasks := spliced[j].tasks + [carried.value.(status := spliced[j].status)])]
  {
    match carried
    case None => spliced
    case Some(t) =>
      match FindColumn(spliced, targetColumnId)
      case None => spliced
      case Some(j) =>
        spliced[j := spliced[j].(tasks := spliced[j].tasks + [t.(status := spliced[j].status)])]
  }

  /** `moveTask`: cut the task out of every column that holds it, then, if a
      task was found and a column has the target id, set its status to that
      column's status and append it there. An unknown task id leaves every
      column as it was; an unknown target drops the task. */
  function MoveTask(cs: seq<Column>, taskId: string, targetColumnId: string): (r: seq<Column>)
    ensures |r| == |cs|
    ensures forall c :: 0 <= c < |r| ==>
      r[c].id == cs[c].id && r[c].title == cs[c].title && r[c].status == cs[c].status
  {
    Place(SpliceAll(cs, taskId), LastMatch(cs, taskId), targetColumnId)
  }
}

=== FILE: store_properties.dfy ===
/** What the two store mutations promise: exact effects, counts, and the
    preservation of the status and unique-id invariants. */
module StoreProperties {
  import opened TaskTypes
  import opened TaskStore

  /** The board with position `k` of column `i` cut out. */
  function RemoveTask(cs: seq<Column>, i: nat, k: nat): (r: seq<Column>)
    requires i < |cs| && k < |cs[i].tasks|
    ensures |r| == |cs|
  {
    cs[i := cs[i].(tasks := RemoveAt(cs[i].tasks, k))]
  }

  /** The board with `t` appended to column `j`. */
  function AppendTask(cs: seq<Column>, j: nat, t: Task): (r: seq<Column>)
    requires j < |cs|
    ensures |r| == |cs|
  {
    cs[j := cs[j].(tasks := cs[j].tasks + [t])]
  }

  /** Where a task of `RemoveTask(cs, i, k)` sat before the cut. */
  function Origin(i: nat, k: nat, c: nat, p: nat): nat
  {
    if c == i && p >= k then p + 1 else p
  }

  // ------------------------------------------------------ building blocks

  /** Every task left after a cut sits, unchanged, at its origin position,
      and no origin is the cut position. */
  lemma CutMapsBack(cs: seq<Column>, i: nat, k: nat)
    requires i < |cs| && k < |cs[i].tasks|
    ensures forall c, p :: 0 <= c < |cs| && 0 <= p < |RemoveTask(cs, i, k)[c].tasks| ==>
      && Origin(i, k, c, p) < |cs[c].tasks|
      && RemoveTask(cs, i, k)[c].tasks[p] == cs[c].tasks[Origin(i, k, c, p)]
      && (c != i || Origin(i, k, c, p) != k)
  {
  }

  /** The column-level effect of a cut: column `i` loses position `k`, the
      others are untouched, and the count drops by one. */
  lemma CutShape(cs: seq<Column>, i: nat, k: nat)
    requires i < |cs| && k < |cs[i].tasks|
    ensures RemoveTask(cs, i, k)[i].tasks == RemoveAt(cs[i].tasks, k)
    ensures forall c :: 0 <= c < |cs| && c != i ==> RemoveTask(cs, i, k)[c] == cs[c]
    ensures TotalCount(RemoveTask(cs, i, k)) + 1 == TotalCount(cs)
  {
    TotalCountUpdate(cs, i, cs[i].(tasks := RemoveAt(cs[i].tasks, k)));
  }

  /** A cut keeps ids unique and removes the cut task's id from the board. */
  lemma CutKeepsUniqueIds(cs: seq<Column>, i: nat, k: nat)
    requires i < |cs| && k < |cs[i].tasks|
    requires UniqueIds(cs)
    ensures UniqueIds(RemoveTask(cs, i, k))
    ensures !Contains(RemoveTask(cs, i, k), cs[i].tasks[k].id)
  {
    var r := RemoveTask(cs, i, k);
    CutMapsBack(cs, i, k);
    forall c, p, d, q |
      0 <= c < |r| && 0 <= p < |r[c].tasks| && 0 <= d < |r| && 0 <= q < |r[d].tasks| &&
      r[c].tasks[p].id == r[d].tasks[q].id
      ensures c == d && p == q
    {
      assert cs[c].tasks[Origin(i, k, c, p)].id == cs[d].tasks[Origin(i, k, d, q)].id;
    }
    forall c, p | 0 <= c < |r| && 0 <= p < |r[c].tasks|
      ensures r[c].tasks[p].id != cs[i].tasks[k].id
    {
      assert cs[c].tasks[Origin(i, k, c, p)].id != cs[i].tasks[k].id;
    }
  }

  lemma CutKeepsStatusConsistent(cs: seq<Column>, i: nat, k: nat)
    requires i < |cs| && k < |cs[i].tasks|
    requires StatusConsistent(cs)
    ensures StatusConsistent(RemoveTask(cs, i, k))
  {
    CutMapsBack(cs, i, k);
  }

  /** A cut keeps every id other than the cut task's. */
  lemma CutKeepsOtherIds(cs: seq<Column>, i: nat, k: nat, id: string)
    requires i < |cs| && k < |cs[i].tasks|
    requires id != cs[i].tasks[k].id && Contains(cs, id)
    ensures Contains(RemoveTask(cs, i, k), id)
  {
    var r := RemoveTask(cs, i, k);
    var c, p :| 0 <= c < |cs| && 0 <= p < |cs[c].tasks| && cs[c].tasks[p].id == id;
    if c == i {
      var p' := if p < k then p else p - 1;
      assert r[c].tasks[p'] == cs[c].tasks[p];
    } else {
      assert r[c].tasks[p] == cs[c].tasks[p];
    }
  }

  /** Cutting a task out keeps both invariants, loses exactly that task's id
      and lowers the count by one. */
  lemma RemoveTaskKeepsWellFormed(cs: seq<Column>, i: nat, k: nat)
    requires i < |cs| && k < |cs[i].tasks|
    requires WellFormed(cs)
    ensures WellFormed(RemoveTask(cs, i, k))
    ensures !Contains(RemoveTask(cs, i, k), cs[i].tasks[k].id)
    ensures forall id :: id != cs[i].tasks[k].id && Contains(cs, id) ==> Contains(RemoveTask(cs, i, k), id)
    ensures TotalCount(RemoveTask(cs, i, k)) + 1 == TotalCount(cs)
  {
    CutKeepsUniqueIds(cs, i, k);
    CutKeepsStatusConsistent(cs, i, k);
    forall id | id != cs[i].tasks[k].id && Contains(cs, id)
      ensures Contains(RemoveTask(cs, i, k), id)
    {
      CutKeepsOtherIds(cs, i, k, id);
    }
    CutShape(cs, i, k);
  }

  /** Appending a task whose id is new and whose status is the column's keeps
      both invariants and raises the count by one. */
  lemma AppendTaskKeepsWellFormed(cs: seq<Column>, j: nat, t: Task)
    requires j < |cs|
    requires WellFormed(cs)
    requires t.status == cs[j].status
    requires !Contains(cs, t.id)
    ensures WellFormed(AppendTask(cs, j, t))
    ensures Contains(AppendTask(cs, j, t), t.id)
    ensures TotalCount(AppendTask(cs, j, t)) == TotalCount(cs) + 1
  {
    var r := AppendTask(cs, j, t);
    var last := |cs[j].tasks|;
    forall c, p | 0 <= c < |r| && 0 <= p < |r[c].tasks| && !(c == j && p == last)
      ensures p < |cs[c].tasks| && r[c].tasks[p] == cs[c].tasks[p]
    {
    }
    forall c, p | 0 <= c < |cs| && 0 <= p < |cs[c].tasks|
      ensures cs[c].tasks[p].id != t.id
    {
    }
    assert r[j].tasks[last] == t;
    TotalCountUpdate(cs, j, cs[j].(tasks := cs[j].tasks + [t]));
  }

  /** The column-level effect of a cut followed by an append to `j`. */
  lemma CutThenAppendShape(cs: seq<Column>, i: nat, k: nat, j: nat, t: Task)
    requires i < |cs| && k < |cs[i].tasks| && j < |cs|
    ensures AppendTask(RemoveTask(cs, i, k), j, t)[j].tasks ==
      (if i == j then RemoveAt(cs[i].tasks, k) else cs[j].tasks) + [t]
    ensures i != j ==> AppendTask(RemoveTask(cs, i, k), j, t)[i].tasks == RemoveAt(cs[i].tasks, k)
    ensures forall c :: 0 <= c < |cs| && c != i && c != j ==> AppendTask(RemoveTask(cs, i, k), j, t)[c] == cs[c]
    ensures TotalCount(AppendTask(RemoveTask(cs, i, k), j, t)) == TotalCount(cs)
  {
    var rest := RemoveTask(cs, i, k);
    CutShape(cs, i, k);
    TotalCountUpdate(rest, j, rest[j].(tasks := rest[j].tasks + [t]));
  }

  /** `find` only looks at column ids, so boards with the same ids agree. */
  lemma FindColumnSeesOnlyIds(a: seq<Column>, b: seq<Column>, columnId: string)
    requires |a| == |b|
    requires forall c :: 0 <= c < |a| ==> a[c].id == b[c].id
    ensures FindColumn(a, columnId) == FindColumn(b, columnId)
  {
    var fa, fb := FindColumn(a, columnId), FindColumn(b, columnId);
    if fa.Some? && fb.Some? {
      assert !(fa.value < fb.value) && !(fb.value < fa.value);
    }
  }

  /** Under unique ids the scan cuts exactly one task and carries that task. */
  lemma ScanFindsTheTask(cs: seq<Column>, id: string, i: nat, k: nat)
    requires UniqueIds(cs)
    requires i < |cs| && k < |cs[i].tasks| && cs[i].tasks[k].id == id
    ensures SpliceAll(cs, id) == RemoveTask(cs, i, k)
    ensures LastMatch(cs, id) == Some(cs[i].tasks[k])
  {
    var s := SpliceAll(cs, id);
    forall c | 0 <= c < |cs|
      ensures s[c] == RemoveTask(cs, i, k)[c]
    {
      if c == i {
        var f := FindTaskIndex(cs[i].tasks, id);
        assert f.Some?;
        assert f.value == k;
      } else {
        forall p | 0 <= p < |cs[c].tasks|
          ensures cs[c].tasks[p].id != id
        {
        }
      }
    }
    var m := LastMatch(cs, id);
    assert m.Some?;
    var c, p :| 0 <= c < |cs| && 0 <= p < |cs[c].tasks| && cs[c].tasks[p] == m.value;
    assert cs[c].tasks[p].id == cs[i].tasks[k].id;
  }

  // ---------------------------------------------------------------- move

  /** An id that no column holds: every column is left exactly as it was. */
  lemma MoveUnknownTaskIsNoop(cs: seq<Column>, taskId: string, targetColumnId: string)
    requires !Contains(cs, taskId)
    ensures MoveTask(cs, taskId, targetColumnId) == cs
  {
    var s := SpliceAll(cs, taskId);
    forall c | 0 <= c < |cs|
      ensures s[c] == cs[c]
    {
      assert FindTaskIndex(cs[c].tasks, taskId).None? by {
        forall p | 0 <= p < |cs[c].tasks|
          ensures cs[c].tasks[p].id != taskId
        {
        }
      }
    }
  }

  /** Under unique ids, moving a present task to the first column `j` with
      the target id is exactly: cut it out, then append it to `j` with `j`'s
      status. */
  lemma MoveExistingIsCutThenAppend(cs: seq<Column>, taskId: string, targetColumnId: string, i: nat, k: nat, j: nat)
    requires UniqueIds(cs)
    requires i < |cs| && k < |cs[i].tasks| && cs[i].tasks[k].id == taskId
    requires j < |cs| && cs[j].id == targetColumnId
    requires forall c :: 0 <= c < j ==> cs[c].id != targetColumnId
    ensures MoveTask(cs, taskId, targetColumnId) ==
      AppendTask(RemoveTask(cs, i, k), j, cs[i].tasks[k].(status := cs[j].status))
  {
    ScanFindsTheTask(cs, taskId, i, k);
    var rest := RemoveTask(cs, i, k);
    FindColumnSeesOnlyIds(rest, cs, targetColumnId);
    var f := FindColumn(cs, targetColumnId);
    assert f == Some(j) by {
      assert f.Some?;
      assert !(f.value < j) && !(j < f.value);
    }
    assert rest[j].status == cs[j].status;
  }

  /** A task at column `i`, position `k`, moved to the first column `j` whose
      id is the target: it leaves its source, is appended once at the end of
      the target with the target's status and every other field as it was;
      all other columns are untouched, the other tasks keep their relative
      order, and the count is unchanged. Moving a task to its own column
      re-appends it at the end. */
  lemma MoveExistingTask(cs: seq<Column>, taskId: string, targetColumnId: string, i: nat, k: nat, j: nat)
    requires UniqueIds(cs)
    requires i < |cs| && k < |cs[i].tasks| && cs[i].tasks[k].id == taskId
    requires j < |cs| && cs[j].id == targetColumnId
    requires forall c :: 0 <= c < j ==> cs[c].id != targetColumnId
    ensures |MoveTask(cs, taskId, targetColumnId)| == |cs|
    ensures MoveTask(cs, taskId, targetColumnId)[j].tasks ==
      (if i == j then RemoveAt(cs[i].tasks, k) else cs[j].tasks) + [cs[i].tasks[k].(status := cs[j].status)]
    ensures i != j ==> MoveTask(cs, taskId, targetColumnId)[i].tasks == RemoveAt(cs[i].tasks, k)
    ensures forall c :: 0 <= c < |cs| && c != i && c != j ==> MoveTask(cs, taskId, targetColumnId)[c] == cs[c]
    ensures TotalCount(MoveTask(cs, taskId, targetColumnId)) == TotalCount(cs)
  {
    MoveExistingIsCutThenAppend(cs, taskId, targetColumnId, i, k, j);
    CutThenAppendShape(cs, i, k, j, cs[i].tasks[k].(status := cs[j].status));
  }

  /** Under unique ids, moving a present task to a target id no column has
      is exactly cutting it out. */
  lemma MoveToUnknownIsCut(cs: seq<Column>, taskId: string, targetColumnId: string, i: nat, k: nat)
    requires UniqueIds(cs)
    requires i < |cs| && k < |cs[i].tasks| && cs[i].tasks[k].id == taskId
    requires forall c :: 0 <= c < |cs| ==> cs[c].id != targetColumnId
    ensures MoveTask(cs, taskId, targetColumnId) == RemoveTask(cs, i, k)
  {
    ScanFindsTheTask(cs, taskId, i, k);
    FindColumnSeesOnlyIds(RemoveTask(cs, i, k), cs, targetColumnId);
  }

  /** A task moved to a target id no column has: it is cut out and lost,
      everything else stays, and the count drops by one. */
  lemma MoveToUnknownColumnDropsTask(cs: seq<Column>, taskId: string, targetColumnId: string, i: nat, k: nat)
    requires UniqueIds(cs)
    requires i < |cs| && k < |cs[i].tasks| && cs[i].tasks[k].id == taskId
    requires forall c :: 0 <= c < |cs| ==> cs[c].id != targetColumnId
    ensures |MoveTask(cs, taskId, targetColumnId)| == |cs|
    ensures MoveTask(cs, taskId, targetColumnId)[i].tasks == RemoveAt(cs[i].tasks, k)
    ensures forall c :: 0 <= c < |cs| && c != i ==> MoveTask(cs, taskId, targetColumnId)[c] == cs[c]
    ensures TotalCount(MoveTask(cs, taskId, targetColumnId)) + 1 == TotalCount(cs)
    ensures !Contains(MoveTask(cs, taskId, targetColumnId), taskId)
  {
    MoveToUnknownIsCut(cs, taskId, targetColumnId, i, k);
    CutShape(cs, i, k);
    CutKeepsUniqueIds(cs, i, k);
  }

  /** Whatever the ids, a move keeps the store invariants. */
  lemma MoveKeepsWellFormed(cs: seq<Column>, taskId: string, targetColumnId: string)
    requires WellFormed(cs)
    ensures WellFormed(MoveTask(cs, taskId, targetColumnId))
  {
    if !Contains(cs, taskId) {
      MoveUnknownTaskIsNoop(cs, taskId, targetColumnId);
    } else {
      var i, k :| 0 <= i < |cs| && 0 <= k < |cs[i].tasks| && cs[i].tasks[k].id == taskId;
      RemoveTaskKeepsWellFormed(cs, i, k);
      var f := FindColumn(cs, targetColumnId);
      if f.None? {
        MoveToUnknownIsCut(cs, taskId, targetColumnId, i, k);
      } else {
        MoveExistingIsCutThenAppend(cs, taskId, targetColumnId, i, k, f.value);
        var rest := RemoveTask(cs, i, k);
        AppendTaskKeepsWellFormed(rest, f.value, cs[i].tasks[k].(status := cs[f.value].status));
      }
    }
  }

  /** The scan's cut in one column spares every task of another id. */
  lemma SpliceKeepsOther(col: Column, id: string, p: int)
    requires 0 <= p < |col.tasks| && col.tasks[p].id != id
    ensures col.tasks[p] in SpliceFirst(col, id).tasks
  {
    var r := SpliceFirst(col, id);
    match FindTaskIndex(col.tasks, id)
    case None =>
      assert r.tasks[p] == col.tasks[p];
    case Some(k) =>
      if p < k {
        assert r.tasks[p] == col.tasks[p];
      } else {
        assert r.tasks[p - 1] == col.tasks[p];
      }
  }

  /** The placement only appends: every task of a column is still there. */
  lemma PlaceKeepsTask(spliced: seq<Column>, carried: Option<Task>, targetColumnId: string, c: int, t: Task)
    requires 0 <= c < |spliced| && t in spliced[c].tasks
    ensures t in Place(spliced, carried, targetColumnId)[c].tasks
  {
  }

  /** A move never loses a task other than the moved one: on any board,
      duplicate ids included, each such task stays in its own column. */
  lemma MoveKeepsOtherTasks(cs: seq<Column>, taskId: string, targetColumnId: string, other: string)
    requires other != taskId && Contains(cs, other)
    ensures Contains(MoveTask(cs, taskId, targetColumnId), other)
    ensures forall c, p :: 0 <= c < |cs| && 0 <= p < |cs[c].tasks| && cs[c].tasks[p].id != taskId ==>
      cs[c].tasks[p] in MoveTask(cs, taskId, targetColumnId)[c].tasks
  {
    var r := MoveTask(cs, taskId, targetColumnId);
    var spliced := SpliceAll(cs, taskId);
    MoveIsScanThenPlace(cs, taskId, targetColumnId);
    forall c, p | 0 <= c < |cs| && 0 <= p < |cs[c].tasks| && cs[c].tasks[p].id != taskId
      ensures cs[c].tasks[p] in r[c].tasks
    {
      SpliceKeepsOther(cs[c], taskId, p);
      PlaceKeepsTask(spliced, LastMatch(cs, taskId), targetColumnId, c, cs[c].tasks[p]);
    }
    var c, p :| 0 <= c < |cs| && 0 <= p < |cs[c].tasks| && cs[c].tasks[p].id == other;
    var q :| 0 <= q < |r[c].tasks| && r[c].tasks[q] == cs[c].tasks[p];
  }

  /** The board todo=[A, B], inprogress=[], done=[]: moving A to in progress
      leaves todo=[B], inprogress=[A] with A's status in progress, done=[]. */
  lemma MoveScenario(a: Task, b: Task)
    requires a.id != b.id
    ensures MoveTask([Column("todo", "To Do", Todo, [a, b]),
                      Column("inprogress", "In Progress", InProgress, []),
                      Column("done", "Done", Done, [])], a.id, "inprogress")
         == [Column("todo", "To Do", Todo, [b]),
             Column("inprogress", "In Progress", InProgress, [a.(status := InProgress)]),
             Column("done", "Done", Done, [])]
  {
    var cs := [Column("todo", "To Do", Todo, [a, b]),
               Column("inprogress", "In Progress", InProgress, []),
               Column("done", "Done", Done, [])];
    assert UniqueIds(cs) by {
      assert |cs[0].tasks| == 2 && |cs[1].tasks| == 0 && |cs[2].tasks| == 0;
    }
    assert cs[0].id != "inprogress" by { assert "todo"[0] != "inprogress"[0]; }
    MoveExistingIsCutThenAppend(cs, a.id, "inprogress", 0, 0, 1);
    var rest := RemoveTask(cs, 0, 0);
    assert rest[0].tasks == [b];
    var r := AppendTask(rest, 1, a.(status := InProgress));
    assert r[1].tasks == [a.(status := InProgress)];
  }

  // ------------------------------------------------------- duplicate ids

  /** When the last column has no match, the scan carries what the
      earlier columns carry. */
  lemma LastMatchSkipsLastColumn(cs: seq<Column>, id: string)
    requires |cs| > 0 && FindTaskIndex(cs[|cs| - 1].tasks, id).None?
    ensures LastMatch(cs, id) == LastMatch(cs[..|cs| - 1], id)
  {
  }

  /** A match in the last column is what the scan carries. */
  lemma LastMatchTakesLastColumn(cs: seq<Column>, id: string)
    requires |cs| > 0 && FindTaskIndex(cs[|cs| - 1].tasks, id).Some?
    ensures LastMatch(cs, id) == Some(cs[|cs| - 1].tasks[FindTaskIndex(cs[|cs| - 1].tasks, id).value])
  {
  }

  /** Columns from position m on that do not hold the id leave the carried
      task as the scan of the columns before m would have it. */
  lemma {:induction false} LastMatchSkipsTail(cs: seq<Column>, id: string, m: nat)
    requires m <= |cs|
    requires forall d, p :: m <= d < |cs| && 0 <= p < |cs[d].tasks| ==> cs[d].tasks[p].id != id
    ensures LastMatch(cs, id) == LastMatch(cs[..m], id)
    decreases |cs| - m
  {
    if m == |cs| {
      assert cs[..m] == cs;
    } else {
      var n := |cs| - 1;
      var front := cs[..n];
      assert forall d :: m <= d < |front| ==> front[d] == cs[d];
      LastMatchSkipsTail(front, id, m);
      assert front[..m] == cs[..m];
      assert FindTaskIndex(cs[n].tasks, id).None?;
      LastMatchSkipsLastColumn(cs, id);
    }
  }

  /** The task the scan carries comes from the LAST column holding the id:
      it is that column's first task with the id, whatever earlier columns
      hold. */
  lemma {:induction false} LastMatchIsFromLastColumn(cs: seq<Column>, id: string, c: nat)
    requires c < |cs| && FindTaskIndex(cs[c].tasks, id).Some?
    requires forall d, p :: c < d < |cs| && 0 <= p < |cs[d].tasks| ==> cs[d].tasks[p].id != id
    ensures LastMatch(cs, id) == Some(cs[c].tasks[FindTaskIndex(cs[c].tasks, id).value])
  {
    LastMatchSkipsTail(cs, id, c + 1);
    var front := cs[..c + 1];
    assert front[c] == cs[c];
    LastMatchTakesLastColumn(front, id);
  }

  /** A move is the scan followed by the placement of what it carried. */
  lemma MoveIsScanThenPlace(cs: seq<Column>, taskId: string, targetColumnId: string)
    ensures MoveTask(cs, taskId, targetColumnId)
         == Place(SpliceAll(cs, taskId), LastMatch(cs, taskId), targetColumnId)
  {
  }

  /** Placing a carried task on the last column, when no earlier column
      shares its id, appends it there with that column's status and leaves
      the earlier columns alone. */
  lemma PlaceOnLastColumn(s: seq<Column>, t: Task)
    requires |s| > 0
    requires forall c :: 0 <= c < |s| - 1 ==> s[c].id != s[|s| - 1].id
    ensures |Place(s, Some(t), s[|s| - 1].id)| == |s|
    ensures forall c :: 0 <= c < |s| - 1 ==> Place(s, Some(t), s[|s| - 1].id)[c] == s[c]
    ensures Place(s, Some(t), s[|s| - 1].id)[|s| - 1].tasks == s[|s| - 1].tasks + [t.(status := s[|s| - 1].status)]
  {
  }

  /** Placing a carried task on the third of three columns with distinct ids. */
  lemma PlaceOnThird(s: seq<Column>, t: Task)
    requires |s| == 3 && s[0].id != s[2].id && s[1].id != s[2].id
    ensures Place(s, Some(t), s[2].id) == [s[0], s[1], s[2].(tasks := s[2].tasks + [t.(status := s[2].status)])]
  {
    assert FindColumn(s, s[2].id) == Some(2);
  }

  /** The count of a three-column board. */
  lemma TotalCountOfThree(cs: seq<Column>)
    requires |cs| == 3
    ensures TotalCount(cs) == |cs[0].tasks| + |cs[1].tasks| + |cs[2].tasks|
  {
    assert TotalCount(cs[..1]) == |cs[0].tasks| by { assert cs[..1][..0] == []; }
    assert cs[..2][..1] == cs[..1];
    assert cs[..3] == cs;
  }

  /** The cut in a column whose only task has the id empties it. */
  lemma SpliceSoleMatch(col: Column, t: Task, id: string)
    requires col.tasks == [t] && t.id == id
    ensures SpliceFirst(col, id) == col.(tasks := [])
  {
    assert col.tasks[0].id == id;
    assert RemoveAt(col.tasks, 0) == [];
  }

  /** The cut in a column holding two tasks with the id keeps the second. */
  lemma SpliceFirstOfTwo(col: Column, a: Task, b: Task)
    requires col.tasks == [a, b] && a.id == b.id
    ensures SpliceFirst(col, a.id) == col.(tasks := [b])
  {
    assert col.tasks[0].id == a.id;
    assert RemoveAt(col.tasks, 0) == [b];
  }

  /** The cut leaves an empty column as it is. */
  lemma SpliceNoTasks(col: Column, id: string)
    requires col.tasks == []
    ensures SpliceFirst(col, id) == col
  {
  }

  /** The scan over a column holding two tasks with one id, followed by an
      empty column: it cuts the first of the two... */
  lemma {:induction false} SpliceDuplicatesInColumn(cs: seq<Column>, a: Task, b: Task)
    requires a.id == b.id
    requires |cs| == 2 && cs[0].tasks == [a, b] && cs[1].tasks == []
    ensures SpliceAll(cs, a.id) == [cs[0].(tasks := [b]), cs[1]]
  {
    var r := SpliceAll(cs, a.id);
    SpliceFirstOfTwo(cs[0], a, b);
    SpliceNoTasks(cs[1], a.id);
    assert r[0] == cs[0].(tasks := [b]) && r[1] == cs[1];
  }

  /** ...and carries it. */
  lemma {:induction false} CarryDuplicatesInColumn(cs: seq<Column>, a: Task, b: Task)
    requires a.id == b.id
    requires |cs| == 2 && cs[0].tasks == [a, b] && cs[1].tasks == []
    ensures LastMatch(cs, a.id) == Some(a)
  {
    assert cs[0].tasks[0].id == a.id;
    LastMatchIsFromLastColumn(cs, a.id, 0);
  }

  /** Two tasks sharing an id in one column: only the first is cut and
      moved; the second stays where it was. */
  lemma {:induction false} MoveDuplicateInOneColumn(cs: seq<Column>, a: Task, b: Task)
    requires a.id == b.id
    requires |cs| == 2 && cs[0].tasks == [a, b] && cs[1].tasks == [] && cs[0].id != cs[1].id
    ensures |MoveTask(cs, a.id, cs[1].id)| == 2
    ensures MoveTask(cs, a.id, cs[1].id)[0].tasks == [b]
    ensures MoveTask(cs, a.id, cs[1].id)[1].tasks == [a.(status := cs[1].status)]
  {
    SpliceDuplicatesInColumn(cs, a, b);
    CarryDuplicatesInColumn(cs, a, b);
    MoveIsScanThenPlace(cs, a.id, cs[1].id);
    PlaceOnLastColumn([cs[0].(tasks := [b]), cs[1]], a);
    assert cs[1].tasks + [a.(status := cs[1].status)] == [a.(status := cs[1].status)];
  }

  /** The scan over two columns holding one task each with the same id,
      followed by an empty column: it cuts both... */
  lemma {:induction false} SpliceDuplicatesAcrossColumns(cs: seq<Column>, a: Task, b: Task)
    requires a.id == b.id
    requires |cs| == 3 && cs[0].tasks == [a] && cs[1].tasks == [b] && cs[2].tasks == []
    ensures SpliceAll(cs, a.id) == [cs[0].(tasks := []), cs[1].(tasks := []), cs[2]]
  {
    var r := SpliceAll(cs, a.id);
    SpliceSoleMatch(cs[0], a, a.id);
    SpliceSoleMatch(cs[1], b, a.id);
    SpliceNoTasks(cs[2], a.id);
    assert r[0] == cs[0].(tasks := []) && r[1] == cs[1].(tasks := []) && r[2] == cs[2];
  }

  /** ...and carries the one from the later column. */
  lemma {:induction false} CarryDuplicatesAcrossColumns(cs: seq<Column>, a: Task, b: Task)
    requires a.id == b.id
    requires |cs| == 3 && cs[0].tasks == [a] && cs[1].tasks == [b] && cs[2].tasks == []
    ensures LastMatch(cs, a.id) == Some(b)
  {
    LastMatchIsFromLastColumn(cs, a.id, 1);
  }

  /** The board after moving an id held by two columns to a third. */
  lemma {:induction false} MoveDuplicateAcrossColumnsShape(cs: seq<Column>, a: Task, b: Task)
    requires a.id == b.id
    requires |cs| == 3 && cs[0].tasks == [a] && cs[1].tasks == [b] && cs[2].tasks == []
    requires cs[0].id != cs[2].id && cs[1].id != cs[2].id
    ensures |MoveTask(cs, a.id, cs[2].id)| == 3
    ensures MoveTask(cs, a.id, cs[2].id)[0].tasks == []
    ensures MoveTask(cs, a.id, cs[2].id)[1].tasks == []
    ensures MoveTask(cs, a.id, cs[2].id)[2].tasks == [b.(status := cs[2].status)]
  {
    var s := [cs[0].(tasks := []), cs[1].(tasks := []), cs[2]];
    SpliceDuplicatesAcrossColumns(cs, a, b);
    CarryDuplicatesAcrossColumns(cs, a, b);
    MoveIsScanThenPlace(cs, a.id, cs[2].id);
    PlaceOnThird(s, b);
    assert s[2].tasks + [b.(status := s[2].status)] == [b.(status := cs[2].status)];
  }

  /** Two tasks sharing an id in different columns: both are cut, only the
      one from the later column is appended to the target, and the board
      ends with one task fewer: the copy from the earlier column is lost. */
  lemma {:induction false} MoveDuplicateAcrossColumnsLosesOne(cs: seq<Column>, a: Task, b: Task)
    requires a.id == b.id
    requires |cs| == 3 && cs[0].tasks == [a] && cs[1].tasks == [b] && cs[2].tasks == []
    requires cs[0].id != cs[2].id && cs[1].id != cs[2].id
    ensures |MoveTask(cs, a.id, cs[2].id)| == 3
    ensures MoveTask(cs, a.id, cs[2].id)[0].tasks == []
    ensures MoveTask(cs, a.id, cs[2].id)[1].tasks == []
    ensures MoveTask(cs, a.id, cs[2].id)[2].tasks == [b.(status := cs[2].status)]
    ensures TotalCount(cs) == 2 && TotalCount(MoveTask(cs, a.id, cs[2].id)) == 1
  {
    MoveDuplicateAcrossColumnsShape(cs, a, b);
    TotalCountOfThree(cs);
    TotalCountOfThree(MoveTask(cs, a.id, cs[2].id));
  }

  // -------------------------------------------------------------- create

  /** At most one column has the todo status (true of the seed board, and
      kept because no mutation changes a column's status). */
  ghost predicate SingleTodoColumn(cs: seq<Column>)
  {
    forall c, d :: 0 <= c < |cs| && 0 <= d < |cs| && cs[c].status == Todo && cs[d].status == Todo ==> c == d
  }

  ghost predicate HasTodoColumn(cs: seq<Column>)
  {
    exists c :: 0 <= c < |cs| && cs[c].status == Todo
  }

  /** Creating a todo task with an id the board does not hold, on a board with
      at most one todo column, keeps both invariants; the count rises by one
      exactly when a todo column exists, and the new id is then on the board. */
  lemma CreateTaskKeepsWellFormed(cs: seq<Column>, data: TaskData, newId: string, now: Date)
    requires WellFormed(cs) && SingleTodoColumn(cs)
    requires data.status == Todo
    requires !Contains(cs, newId)
    ensures WellFormed(CreateTask(cs, data, newId, now))
    ensures TotalCount(CreateTask(cs, data, newId, now)) == TotalCount(cs) + (if HasTodoColumn(cs) then 1 else 0)
    ensures Contains(CreateTask(cs, data, newId, now), newId) <==> HasTodoColumn(cs)
  {
    var r := CreateTask(cs, data, newId, now);
    var t := NewTask(data, newId, now);
    if HasTodoColumn(cs) {
      var j :| 0 <= j < |cs| && cs[j].status == Todo;
      assert r == AppendTask(cs, j, t);
      AppendTaskKeepsWellFormed(cs, j, t);
    } else {
      assert r == cs;
    }
  }

  /** The caller's status is not overridden: asked for anything but todo, the
      new task sits in a todo column with a different status. */
  lemma CreateTaskKeepsCallerStatus(cs: seq<Column>, data: TaskData, newId: string, now: Date, j: nat)
    requires j < |cs| && cs[j].status == Todo
    requires data.status != Todo
    ensures !StatusConsistent(CreateTask(cs, data, newId, now))
  {
    var r := CreateTask(cs, data, newId, now);
    assert r[j].tasks[|cs[j].tasks|].status != r[j].status;
  }

  /** With two todo columns the new task is appended to both, so its id is
      no longer unique. */
  lemma CreateTaskDuplicatesAcrossTodoColumns(cs: seq<Column>, data: TaskData, newId: string, now: Date, c: nat, d: nat)
    requires c < |cs| && d < |cs| && c != d
    requires cs[c].status == Todo && cs[d].status == Todo
    ensures !UniqueIds(CreateTask(cs, data, newId, now))
  {
    var r := CreateTask(cs, data, newId, now);
    assert r[c].tasks[|cs[c].tasks|].id == r[d].tasks[|cs[d].tasks|].id;
  }
}

=== FILE: text.dfy ===
/** `String.prototype.trim`: strip the ECMAScript white space and line
    terminator characters from both ends of a string. */
module Text {

  /** The characters `trim` strips: WhiteSpace (TAB, VT, FF, SP, NBSP,
      ZWNBSP and the Unicode Space_Separator class) and LineTerminator
      (LF, CR, LS, PS) of the ECMAScript grammar. */
  predicate IsWhitespace(c: char)
  {
    c == '\t' || c == '\n' || c == '\U{000B}' || c == '\U{000C}' || c == '\r' || c == ' '
    || c == '\U{00A0}' || c == '\U{1680}' || ('\U{2000}' <= c <= '\U{200A}')
    || c == '\U{2028}' || c == '\U{2029}' || c == '\U{202F}' || c == '\U{205F}'
    || c == '\U{3000}' || c == '\U{FEFF}'
  }

  ghost predicate AllWhitespace(s: string)
  {
    forall i :: 0 <= i < |s| ==> IsWhitespace(s[i])
  }

  /** No white space at either end (the shape of every trimmed string). */
  ghost predicate Trimmed(s: string)
  {
    |s| == 0 || (!IsWhitespace(s[0]) && !IsWhitespace(s[|s| - 1]))
  }

  /** Length of the leading run of white space. */
  function LeadingSpace(s: string): (n: nat)
    ensures n <= |s|
    ensures AllWhitespace(s[..n])
    ensures n < |s| ==> !IsWhitespace(s[n])
  {
    if |s| == 0 || !IsWhitespace(s[0]) then 0
    else
      var n := 1 + LeadingSpace(s[1..]);
      assert s[..n] == [s[0]] + s[1..][..n - 1];
      n
  }

  /** Length of the trailing run of white space. */
  function TrailingSpace(s: string): (n: nat)
    ensures n <= |s|
    ensures AllWhitespace(s[|s| - n..])
    ensures n < |s| ==> !IsWhitespace(s[|s| - n - 1])
  {
    if |s| == 0 || !IsWhitespace(s[|s| - 1]) then 0
    else
      var n := 1 + TrailingSpace(s[..|s| - 1]);
      assert s[|s| - n..] == s[..|s| - 1][|s| - n..] + [s[|s| - 1]];
      n
  }

  /** `s.trim()`: what is left between the leading and the trailing run.
      The input is white space, then the result, then white space. */
  function Trim(s: string): (r: string)
    ensures Trimmed(r)
    ensures |r| == 0 <==> AllWhitespace(s)
    ensures LeadingSpace(s) + |r| <= |s|
    ensures r == s[LeadingSpace(s)..LeadingSpace(s) + |r|]
    ensures AllWhitespace(s[LeadingSpace(s) + |r|..])
  {
    var a := LeadingSpace(s);
    var rest := s[a..];
    var r := rest[..|rest| - TrailingSpace(rest)];
    assert |r| == 0 ==> a == |s|;
    r
  }

  /** Padding a trimmed string with white space on either side trims back
      to it; together with `Trim`'s contract this pins `Trim` down. */
  lemma {:induction false} TrimStripsPadding(front: string, core: string, back: string)
    requires AllWhitespace(front) && AllWhitespace(back)
    requires Trimmed(core)
    ensures Trim(front + core + back) == core
  {
    var s := front + core + back;
    if |core| == 0 {
      assert AllWhitespace(s) by {
        forall i | 0 <= i < |s| ensures IsWhitespace(s[i]) {
          if i < |front| { assert s[i] == front[i]; } else { assert s[i] == back[i - |front|]; }
        }
      }
    } else {
      LeadingSpaceOfPadded(front, core + back);
      assert s == front + (core + back);
      var rest := s[|front|..];
      assert rest == core + back;
      TrailingSpaceOfPadded(core, back);
    }
  }

  lemma {:induction false} LeadingSpaceOfPadded(front: string, t: string)
    requires AllWhitespace(front)
    requires |t| > 0 && !IsWhitespace(t[0])
    ensures LeadingSpace(front + t) == |front|
    decreases |front|
  {
    if |front| == 0 {
      assert front + t == t;
    } else {
      assert (front + t)[1..] == front[1..] + t;
      LeadingSpaceOfPadded(front[1..], t);
    }
  }

  lemma {:induction false} TrailingSpaceOfPadded(t: string, back: string)
    requires AllWhitespace(back)
    requires |t| > 0 && !IsWhitespace(t[|t| - 1])
    ensures TrailingSpace(t + back) == |back|
    decreases |back|
  {
    if |back| == 0 {
      assert t + back == t;
    } else {
      var s := t + back;
      assert s[..|s| - 1] == t + back[..|back| - 1];
      TrailingSpaceOfPadded(t, back[..|back| - 1]);
    }
  }

  /** A one-character string trims to nothing exactly when its character
      is in the stripped set, and otherwise to itself. */
  lemma TrimSingleChar(c: char)
    ensures IsWhitespace(c) <==> Trim([c]) == []
    ensures !IsWhitespace(c) ==> Trim([c]) == [c]
  {
    if !IsWhitespace(c) {
      assert "" + [c] + "" == [c];
      TrimStripsPadding("", [c], "");
    }
  }

  /** Trimming twice is trimming once. */
  lemma TrimIdempotent(s: string)
    ensures Trim(Trim(s)) == Trim(s)
  {
    var r := Trim(s);
    assert "" + r + "" == r;
    TrimStripsPadding("", r, "");
  }
}

=== FILE: types.dfy ===
/** The record shapes of the board: a task, a column, the three-valued
    status and the creation payload (a task without its generated fields). */
module TaskTypes {

  /** Stand-in for a nullable value (`T | null`). */
  datatype Option<+T> = None | Some(value: T)

  /** A point in time, as the milliseconds since the epoch a JS `Date` holds. */
  datatype Date = Date(epochMillis: int)

  /** The status string union `'todo' | 'inprogress' | 'done'`. */
  datatype Status = Todo | InProgress | Done

  /** The string literal each status is written as. */
  function StatusName(s: Status): (r: string)
    ensures r == "todo" || r == "inprogress" || r == "done"
  {
    match s
    case Todo => "todo"
    case InProgress => "inprogress"
    case Done => "done"
  }

  /** Reads a status literal back; anything outside the union is rejected. */
  function ParseStatus(name: string): (r: Option<Status>)
    ensures r.Some? <==> name == "todo" || name == "inprogress" || name == "done"
    ensures r.Some? ==> StatusName(r.value) == name
  {
    if name == "todo" then Some(Todo)
    else if name == "inprogress" then Some(InProgress)
    else if name == "done" then Some(Done)
    else None
  }

  /** Every status is written as a literal that reads back as itself, and no
      two statuses share a literal. */
  lemma StatusNameRoundTrip(s: Status, t: Status)
    ensures ParseStatus(StatusName(s)) == Some(s)
    ensures StatusName(s) == StatusName(t) ==> s == t
  {
  }

  datatype Task = Task(
    id: string,
    summary: string,
    description: string,
    assignee: string,
    createdDate: Date,
    startDate: Option<Date>,
    shipDate: Option<Date>,
    status: Status)

  datatype Column = Column(id: string, title: string, status: Status, tasks: seq<Task>)

  /** What a caller hands to task creation: every task field but `id` and
      `createdDate`, which the store generates. */
  datatype TaskData = TaskData(
    summary: string,
    description: string,
    assignee: string,
    startDate: Option<Date>,
    shipDate: Option<Date>,
    status: Status)

  /** The caller-supplied part of a task: everything but its id and its
      creation date. */
  function DataOf(t: Task): TaskData
  {
    TaskData(t.summary, t.description, t.assignee, t.startDate, t.shipDate, t.status)
  }

  /** Number of tasks over all columns. */
  function TotalCount(cs: seq<Column>): nat
  {
    if |cs| == 0 then 0 else TotalCount(cs[..|cs| - 1]) + |cs[|cs| - 1].tasks|
  }

  /** Replacing one column changes the total by the difference in its size. */
  lemma {:induction false} TotalCountUpdate(cs: seq<Column>, c: nat, col: Column)
    requires c < |cs|
    ensures TotalCount(cs[c := col]) + |cs[c].tasks| == TotalCount(cs) + |col.tasks|
    decreases |cs|
  {
    var n := |cs| - 1;
    if c < n {
      assert cs[c := col][..n] == cs[..n][c := col];
      TotalCountUpdate(cs[..n], c, col);
    } else {
      assert cs[c := col][..n] == cs[..n];
    }
  }

  /** The status invariant: every task carries its column's status. */
  ghost predicate StatusConsistent(cs: seq<Column>)
  {
    forall c, p :: 0 <= c < |cs| && 0 <= p < |cs[c].tasks| ==> cs[c].tasks[p].status == cs[c].status
  }

  /** Task ids are unique across the whole board: two positions holding the
      same id are the same position. */
  ghost predicate UniqueIds(cs: seq<Column>)
  {
    forall c, p, d, q ::
      0 <= c < |cs| && 0 <= p < |cs[c].tasks| && 0 <= d < |cs| && 0 <= q < |cs[d].tasks| &&
      cs[c].tasks[p].id == cs[d].tasks[q].id
      ==> c == d && p == q
  }

  /** Some column holds a task with this id. */
  ghost predicate Contains(cs: seq<Column>, id: string)
  {
    exists c, p :: 0 <= c < |cs| && 0 <= p < |cs[c].tasks| && cs[c].tasks[p].id == id
  }

  ghost predicate WellFormed(cs: seq<Column>)
  {
    StatusConsistent(cs) && UniqueIds(cs)
  }
}
